=== FILE: README.md ===
# Sports tracker: live-event registry and polling lifecycle

A Dafny model of the core of the sports tracker service. An HTTP control call
marks a sports event live or not live. While an event is live, a recurring task
fetches its score from an external API and publishes it to a Kafka topic.

The model covers four parts of the source:

- the `LiveEvent` record;
- the `EventStateManager` registry (a map from event id to record);
- the polling lifecycle of `SportsTrackerService`: start, stop, one poll tick,
  the message transform, the statistics read and shutdown;
- the decisions of `EventStatusController`: update status, get status, and the
  live list.

Everything is written as pure functions over immutable values (one method walks
the map to build the live list):

- `Tasks`: the `ScheduledFuture` objects. In the service the record and the
  scheduler share one future object, so a cancel through either is seen by
  both. The model keeps every future ever created in one table
  (`map<TaskId, Task>`). A record holds only the task id. A `Task` records
  its event id, whether it was cancelled, its first run (`now + 1000`) and its
  period.
- `LiveEvents`: the record and `markAsLive`, `markAsNotLive`,
  `updateLastPolled`. It also defines `HasScheduledTask` (the handle is
  present and not cancelled).
- `EventState`: the registry operations. `LiveIds` is the reference definition
  of "the live ids".
- `PollingService`: start, stop, tick, transform, stats, shutdown, and `Fire`
  (the scheduler firing one future).
- `StatusController`: the three endpoints, with the HTTP status code kept as a
  field of the response value.
- `Lifecycle`: the scheduler invariant `Valid` and its proofs. The invariant
  says every uncancelled future belongs to a present, live record that refers
  to it, so an id never has two running futures. Every operation preserves it,
  and so does every run of operations from the initial state.

Time is an abstract clock `now: nat`, passed to each call. The external API and
the producer are oracles:

- `fetch: string -> Option<ApiResponse>` answers None where the API client
  returns null. It returns null on every failure, after its own retries.
- `publish: (string, KafkaMessage) -> bool` answers whether the producer
  reported success. An exception thrown by the producer is caught inside the
  tick and changes no state, so it behaves like `false`.

A tick also returns a trace of its outside steps: fetch, poll-time record,
publish. The trace lets the contracts say that a self-stopping tick calls
nothing outside, and that the poll time is recorded before publishing.

The live path of the controller can throw in one place: the task scheduler
refusing to schedule the task. It does so with `TaskRejectedException` (for
instance once it is shut down), or with `IllegalArgumentException` when the
configured period is not positive. Both are the `accepted` flag. By the
time the exception is thrown, the event is already marked live and its earlier
future is already cancelled. The response is then 500 "ERROR", and the event
is left live with nothing polling it.

Three facts about the code shape the model:

- `removeEvent` cancels the removed record's future, through `markAsNotLive`
  (`EventStateManager.java:114`).
- The registry itself cancels futures, in `markEventAsNotLive`, `removeEvent`
  and `clearAll`; the service is not the only place that cancels.
- Fetch and publish retries are not a separate component. They sit inside
  the two clients, which are oracles here.

## Model

| member | source | states |
|---|---|---|
| Tasks.Cancel | src/main/java/com/spgroup/model/LiveEvent.java:41-43 | `cancel(false)` leaves the future cancelled and no other future changed; the table's ids are kept |
| LiveEvents.MarkAsLive | src/main/java/com/spgroup/model/LiveEvent.java:31-34 | the record becomes live with `lastUpdated = now`; the id, poll time and task reference are kept |
| LiveEvents.MarkAsNotLive | src/main/java/com/spgroup/model/LiveEvent.java:36-44 | the record becomes not live with `lastUpdated = now`; a running referenced future is cancelled (only its flag changes) while the reference stays; no other future changes, and nothing changes when no running future is referenced |
| LiveEvents.UpdateLastPolled | src/main/java/com/spgroup/model/LiveEvent.java:46-48 | only `lastPolled` changes, to `now` |
| LiveEvents.MarkAsNotLiveTwice | src/main/java/com/spgroup/model/LiveEvent.java:41 | a second `markAsNotLive` cancels nothing more and yields the same flags and reference as the first |
| EventState.MarkEventAsLive | src/main/java/com/spgroup/service/EventStateManager.java:30-41 | afterwards the id maps to the returned record, which is live with `lastUpdated = now`; an existing record keeps its poll time and task and the key set does not grow; an unknown id gets a new record with no poll time and no task; other keys and the futures are untouched |
| EventState.MarkEventAsNotLive | src/main/java/com/spgroup/service/EventStateManager.java:49-60 | None exactly when the id is unknown, and then nothing changes; otherwise the stored record, and the one returned, is the old record with only the flag lowered and `lastUpdated = now` (id, poll time and reference kept); its running future is cancelled with its other fields kept, no future runs for it, and other keys and every other future are untouched |
| EventState.GetEvent | src/main/java/com/spgroup/service/EventStateManager.java:68-70 | Some exactly when the id is present, carrying its record |
| EventState.IsEventLive | src/main/java/com/spgroup/service/EventStateManager.java:89-92 | true exactly when the id is among the live ids |
| EventState.AllLiveEvents | src/main/java/com/spgroup/service/EventStateManager.java:77-81 | one entry per live id: every entry is a stored live record, every live record appears, and the length is the number of live ids |
| EventState.TotalEventsCount | src/main/java/com/spgroup/service/EventStateManager.java:124-126 | the total counts every record: it is the number of live ids plus the number of not-live ids, and it is zero exactly when the registry is empty |
| EventState.LiveEventsCount | src/main/java/com/spgroup/service/EventStateManager.java:133-137 | the live count never exceeds the total count |
| EventState.LiveEventsCountIsListLength | src/main/java/com/spgroup/service/EventStateManager.java:124-137 | the live list's length equals the live count, which is at most the map size |
| EventState.LiveListDistinct | src/main/java/com/spgroup/service/EventStateManager.java:77-81 | when every record is stored under its own id, a list with one entry per live id that holds every live record has no repeats, and each entry is the record under a live id |
| EventState.LiveQueryAfterMarks | src/main/java/com/spgroup/service/EventStateManager.java:89-92 | after marking an id live it is live; after marking it not live it is not |
| EventState.UpdateLastPolled | src/main/java/com/spgroup/service/EventStateManager.java:99-104 | unknown id: no change; known id: only that record's `lastPolled` becomes `now` |
| EventState.UpdateLastPolledKeepsLiveness | src/main/java/com/spgroup/service/EventStateManager.java:99-104 | recording a poll changes neither the live ids nor the total count |
| EventState.RemoveEvent | src/main/java/com/spgroup/service/EventStateManager.java:111-117 | the key is gone, other records are untouched, the removed record's future is cancelled (only its flag changes), and no other future changes |
| EventState.ClearAll | src/main/java/com/spgroup/service/EventStateManager.java:142-146 | the total count is 0, every future a record referred to is cancelled with only its flag changing, and all other futures are untouched |
| PollingService.StartPollingForEvent | src/main/java/com/spgroup/service/SportsTrackerService.java:41-69 | unknown or not-live id: refused with no change; live id: any running earlier future is cancelled, only its flag changing; if accepted, a new uncancelled future for the id (first run `now + 1000`, configured period) is created and referenced, with a fresh task id; if rejected, the record is unchanged and has no running future; other records are untouched |
| PollingService.StopPollingForEvent | src/main/java/com/spgroup/service/SportsTrackerService.java:76-89 | with a running future: it is cancelled and the reference cleared; otherwise (unknown id, no reference, already cancelled) nothing changes; afterwards the id has no running future |
| PollingService.StopIdempotent | src/main/java/com/spgroup/service/SportsTrackerService.java:84-88 | a second stop changes nothing |
| PollingService.TransformToKafkaMessage | src/main/java/com/spgroup/service/SportsTrackerService.java:140-149 | the message carries the response's event id and score, the current time and source "sports-tracker" |
| PollingService.PollEventData | src/main/java/com/spgroup/service/SportsTrackerService.java:97-132 | an id that is not live stops its own polling and calls nothing outside; an empty fetch changes nothing and does not publish; a successful fetch records `lastPolled = now`, leaves the futures and every other record untouched, and then publishes under key = id the response's id and score stamped `now` with source "sports-tracker"; the producer's answer decides only the outcome |
| PollingService.PolledOnlyAfterFetch | src/main/java/com/spgroup/service/SportsTrackerService.java:109-117 | a tick changes `lastPolled` only after a fetch that returned data, and sets it to the tick's instant |
| PollingService.Fire | src/main/java/com/spgroup/service/SportsTrackerService.java:61-65 | a cancelled future does not run; a running one runs the tick for its own event |
| PollingService.GetPollingStats | src/main/java/com/spgroup/service/SportsTrackerService.java:156-164 | `totalEvents` is the map size, `liveEvents` is the number of live ids and is at most the total, and `pollingIntervalMs` is the configured period |
| PollingService.Shutdown | src/main/java/com/spgroup/service/SportsTrackerService.java:170-181 | every live record's future is cancelled, only its flag changing; the records and the futures not referred to by live records are untouched |
| StatusController.UpdateEventStatus | src/main/java/com/spgroup/controller/EventStatusController.java:53-103 | a live request adds the id if unknown and leaves it live, stamped `now`, with its stored id (the request's id for a new record) and poll time kept: a previously running future of the record is cancelled, only its flag changing; accepted, it answers 200 "LIVE" and the record refers to a new running future with a fresh id (first run `now + 1000`); rejected, it answers 500 "ERROR" with the exception's message, the reference is unchanged and no future runs; a not-live request answers 200 "NOT_LIVE", never adds a record, changes nothing for an unknown id, and leaves a known id not live, stamped `now`, with its id and poll time kept, its reference cleared and its future cancelled (only the flag changing) if that future was running, and everything kept otherwise; every other record, every other future and the task-id counter (except for the one new future) are untouched |
| StatusController.GetEventStatus | src/main/java/com/spgroup/controller/EventStatusController.java:113-133 | 404 with `found = false` exactly for unknown ids; otherwise 200 with the record's fields, and `hasScheduledTask` holds exactly when the handle is present and not cancelled |
| StatusController.GetAllLiveEvents | src/main/java/com/spgroup/controller/EventStatusController.java:142-158 | `count` equals the length of `events`, and both equal the registry's live count; each entry summarises a live record, and each live record is summarised |
| StatusController.StatusAfterUpdate | src/main/java/com/spgroup/controller/EventStatusController.java:53-133 | after an update, get-status reports: live, with a task exactly when the scheduler accepted (live request); not live and no task (not-live request, known id); not found (not-live request, unknown id); when every record is stored under its own id, the reported id is the request's |
| Lifecycle.ActiveTasksOfValid | src/main/java/com/spgroup/service/SportsTrackerService.java:54-67 | under the invariant, an id's running futures are exactly the one its record references when that one runs, and none otherwise; so there is at most one |
| Lifecycle.AtMostOneActive | src/main/java/com/spgroup/service/SportsTrackerService.java:54-67 | under the invariant, two running futures of the same event are the same future |
| Lifecycle.InitValid | src/main/java/com/spgroup/service/EventStateManager.java:22 | the empty registry satisfies the invariant |
| Lifecycle.MarkEventAsLivePreserves | src/main/java/com/spgroup/service/EventStateManager.java:30-41 | `markEventAsLive` preserves the invariant |
| Lifecycle.MarkEventAsNotLivePreserves | src/main/java/com/spgroup/service/EventStateManager.java:49-60 | `markEventAsNotLive` preserves the invariant |
| Lifecycle.UpdateLastPolledPreserves | src/main/java/com/spgroup/service/EventStateManager.java:99-104 | `updateLastPolled` preserves the invariant |
| Lifecycle.RemoveEventPreserves | src/main/java/com/spgroup/service/EventStateManager.java:111-117 | `removeEvent` preserves the invariant |
| Lifecycle.ClearAllPreserves | src/main/java/com/spgroup/service/EventStateManager.java:142-146 | `clearAll` preserves the invariant |
| Lifecycle.StartPollingPreserves | src/main/java/com/spgroup/service/SportsTrackerService.java:54-67 | start preserves the invariant; on an accepted live id the only running future of the id is the new one |
| Lifecycle.StopPollingPreserves | src/main/java/com/spgroup/service/SportsTrackerService.java:84-86 | stop preserves the invariant and leaves the id with no running future |
| Lifecycle.PollEventDataPreserves | src/main/java/com/spgroup/service/SportsTrackerService.java:97-132 | a tick for any id, including one still in flight after its future was cancelled, preserves the invariant |
| Lifecycle.ShutdownPreserves | src/main/java/com/spgroup/service/SportsTrackerService.java:170-181 | shutdown preserves the invariant, and afterwards no future runs at all |
| Lifecycle.UpdateEventStatusPreserves | src/main/java/com/spgroup/controller/EventStatusController.java:62-88 | a status update preserves the invariant; the id then has exactly one running future after an accepted live request, and none otherwise |
| Lifecycle.RunPreservesValid | src/main/java/com/spgroup/service/SportsTrackerService.java:54-89 | every sequence of operations started from a valid state ends in a valid state |
| Lifecycle.ReachableStatesHaveOneTaskPerEvent | src/main/java/com/spgroup/service/SportsTrackerService.java:54-67 | in every state reachable from start-up, each id has at most one running future, and an id with one is live |
| Lifecycle.NoFiringAfterStop | src/main/java/com/spgroup/service/SportsTrackerService.java:76-89 | after stop, no future of that event fires |
| Lifecycle.FiringNeverSelfStops | src/main/java/com/spgroup/service/SportsTrackerService.java:102-106 | under the invariant, a future that fires always finds its event live; only a tick already in flight can take the self-stop branch |
| Lifecycle.StartBeforeMarkPollsNothing | src/main/java/com/spgroup/controller/EventStatusController.java:62-65 | starting before marking live, on an unknown id, would leave the event live with nothing polling; this is why the controller marks the event first |
| Lifecycle.RemoveEventEndsPolling | src/main/java/com/spgroup/service/EventStateManager.java:111-117 | after removal the id is not found and has no running future |
| Lifecycle.ClearAllEndsPolling | src/main/java/com/spgroup/service/EventStateManager.java:142-146 | after clearing, the statistics report 0 total and 0 live, and no future runs |

## Left out

- Concurrency. `ConcurrentHashMap` atomicity, the 10-thread scheduler pool
  and its 30-second shutdown grace (`SchedulerConfig.java`) are not modelled.
  Neither are overlapping fixed-rate ticks. Each call is one atomic step. A
  tick in flight is the free-standing `Poll` action, and it may run in any
  state.
- Timer timing. A future records only its first run (`now + 1000`) and its
  period. When ticks fire is not modelled; `Fire` is one firing on demand.
- `ExternalApiService`: WebClient I/O, its Reactor retry with jittered backoff
  and the `@Retryable` wrapper. It is the `fetch` oracle.
- `KafkaProducerService`: JSON serialisation, the Kafka send, its 10-second
  acknowledgement wait and `@Retryable` backoff. It is the `publish` oracle.
  Exceptions that escape it are caught by the tick and behave like `false`.
- Kafka, external-API and scheduler configuration classes, application
  bootstrap, `MockApiController`, and the `healthCheck` and `getStats` HTTP
  wrappers. `getStats` only returns `getPollingStats`.
- Bean validation of `EventStatusRequest`. Any string is accepted as an id,
  and the status is one of two values.
- Logging, and timestamps rendered as ISO strings. Every timestamp is the
  abstract `now` of the call. The several `Instant.now()` reads inside one
  call are merged into one instant.
- The default of `app.polling.interval` (10000 ms, `SportsTrackerService.java:32`)
  is configuration; the period is the parameter of `Init`.
- The scheduler's check that the period is positive. `Init` accepts any
  period, including 0. A caller that configures 0 must pass `accepted = false`
  to every start, since the scheduler refuses that period.
- `LiveEvent.externalApiUrl`: no core code sets or reads it.
- Exceptions in `updateEventStatus` other than the scheduler refusing a task
  (for instance a null status, which validation rules out).
- EventState.LiveEventsCount: Java's `int` result is not modelled. It would
  overflow above 2^31 - 1 records. `TotalEventsCount` and the statistics use
  unbounded naturals for the same reason.
- EventState.AllLiveEvents: the order of the list is left open, as the hash
  map's iteration order is. The contract fixes its contents but not its order.

=== FILE: event_state_manager.dfy ===
/** `EventStateManager`: the in-memory registry of live-event records, keyed
    by event id. Each call is one atomic step on an immutable value. */
module EventState {
  import opened Optional
  import opened Tasks
  import opened LiveEvents

  /** The registry map, beside the table of futures its records refer to
      (cancelling through a record changes the shared future). */
  datatype Registry = Registry(events: map<string, LiveEvent>, futures: TaskTable)

  /** Result of `markEventAsLive`: the record returned, and the new registry. */
  datatype Marked = Marked(event: LiveEvent, registry: Registry)

  /** Result of `markEventAsNotLive`: the record, or None for Java's null. */
  datatype MaybeMarked = MaybeMarked(event: Option<LiveEvent>, registry: Registry)

  /** Every record is stored under its own id, as `computeIfAbsent` builds it. */
  predicate WellKeyed(events: map<string, LiveEvent>) {
    forall k :: k in events ==> events[k].eventId == k
  }

  /** Reference definition: the ids whose record is live. */
  function LiveIds(events: map<string, LiveEvent>): set<string> {
    set k | k in events && events[k].isLive
  }

  /** The record `computeIfAbsent` builds for an unknown id, before
      `markAsLive` runs on it: not live, never polled, no task. */
  function Fresh(id: string, now: nat): LiveEvent {
    LiveEvent(id, false, now, None, None)
  }

  /** `markEventAsLive`: upsert. A known record keeps its poll time and task
      reference and the map does not grow; an unknown id gets a new record. */
  function MarkEventAsLive(reg: Registry, id: string, now: nat): (r: Marked)
    ensures id in r.registry.events && r.registry.events[id] == r.event
    ensures r.event.isLive && r.event.lastUpdated == now
    ensures id in reg.events ==>
              && r.event.eventId == reg.events[id].eventId
              && r.event.lastPolled == reg.events[id].lastPolled
              && r.event.scheduledTask == reg.events[id].scheduledTask
              && r.registry.events.Keys == reg.events.Keys
    ensures id !in reg.events ==>
              && r.event == LiveEvent(id, true, now, None, None)
              && r.registry.events.Keys == reg.events.Keys + {id}
    ensures forall k :: k in reg.events && k != id ==> r.registry.events[k] == reg.events[k]
    ensures r.registry.futures == reg.futures
  {
    var current := if id in reg.events then reg.events[id] else Fresh(id, now);
    var e := MarkAsLive(current, now);
    Marked(e, reg.(events := reg.events[id := e]))
  }

  /** `markEventAsNotLive`: None (and no change) for an unknown id; otherwise
      the record goes not-live, its running future is cancelled, and no other
      key changes. */
  function MarkEventAsNotLive(reg: Registry, id: string, now: nat): (r: MaybeMarked)
    ensures r.event.None? <==> id !in reg.events
    ensures id !in reg.events ==> r.registry == reg
    ensures r.registry.events.Keys == reg.events.Keys
    ensures id in reg.events ==>
              && r.event == Some(r.registry.events[id])
              && r.registry.events[id] == reg.events[id].(isLive := false, lastUpdated := now)
              && !r.registry.events[id].isLive
              && r.registry.events[id].lastUpdated == now
              && r.registry.events[id].scheduledTask == reg.events[id].scheduledTask
              && r.registry.events[id].lastPolled == reg.events[id].lastPolled
              && !HasScheduledTask(r.registry.events[id], r.registry.futures)
    ensures forall k :: k in reg.events && k != id ==> r.registry.events[k] == reg.events[k]
    ensures r.registry.futures.Keys == reg.futures.Keys
    ensures forall u :: u in reg.futures && (id !in reg.events || Some(u) != reg.events[id].scheduledTask) ==>
              r.registry.futures[u] == reg.futures[u]
    ensures id in reg.events && HasScheduledTask(reg.events[id], reg.futures) ==>
              var h := reg.events[id].scheduledTask.value;
              r.registry.futures[h] == reg.futures[h].(cancelled := true)
  {
    match Lookup(reg.events, id)
    case None => MaybeMarked(None, reg)
    case Some(e) =>
      var w := MarkAsNotLive(e, reg.futures, now);
      MaybeMarked(Some(w.event), Registry(reg.events[id := w.event], w.tasks))
  }

  /** `getEvent`. */
  function GetEvent(reg: Registry, id: string): (r: Option<LiveEvent>)
    ensures r.Some? <==> id in reg.events
    ensures r.Some? ==> r.value == reg.events[id]
  {
    Lookup(reg.events, id)
  }

  /** `isEventLive`: the record exists and its flag is up. */
  predicate IsEventLive(reg: Registry, id: string)
    ensures IsEventLive(reg, id) <==> id in LiveIds(reg.events)
  {
    var e := GetEvent(reg, id);
    e.Some? && e.value.isLive
  }

  /** `getAllLiveEvents`: the live records, in the order the map's key set is
      walked (the service's hash-map order is unspecified too). One entry per
      live key, and nothing that is not live. */
  method AllLiveEvents(events: map<string, LiveEvent>) returns (live: seq<LiveEvent>)
    ensures |live| == |LiveIds(events)|
    ensures forall i :: 0 <= i < |live| ==> live[i].isLive && live[i] in events.Values
    ensures forall k :: k in LiveIds(events) ==> events[k] in live
  {
    live := [];
    var pending := events.Keys;
    while pending != {}
      invariant pending <= events.Keys
      invariant |live| == |LiveIds(events) - pending|
      invariant forall i :: 0 <= i < |live| ==> live[i].isLive && live[i] in events.Values
      invariant forall k :: k in LiveIds(events) - pending ==> events[k] in live
      decreases pending
    {
      var k :| k in pending;
      if events[k].isLive {
        assert LiveIds(events) - (pending - {k}) == (LiveIds(events) - pending) + {k};
        live := live + [events[k]];
      } else {
        assert LiveIds(events) - (pending - {k}) == LiveIds(events) - pending;
      }
      pending := pending - {k};
    }
  }

  /** Reference definition: the ids whose record is not live. */
  function NotLiveIds(events: map<string, LiveEvent>): set<string> {
    set k | k in events && !events[k].isLive
  }

  /** `getTotalEventsCount`: every record counts, live or not, and the count
      is zero exactly when the registry is empty. */
  function TotalEventsCount(reg: Registry): (n: nat)
    ensures n == |LiveIds(reg.events)| + |NotLiveIds(reg.events)|
    ensures n == 0 <==> reg.events == map[]
  {
    var events := reg.events;
    assert events.Keys == LiveIds(events) + NotLiveIds(events);
    assert LiveIds(events) * NotLiveIds(events) == {};
    |events|
  }

  /** `getLiveEventsCount`: never more than the total. */
  function LiveEventsCount(reg: Registry): (n: nat)
    ensures n <= TotalEventsCount(reg)
  {
    LiveIdsBounded(reg.events);
    |LiveIds(reg.events)|
  }

  lemma LiveIdsBounded(events: map<string, LiveEvent>)
    ensures |LiveIds(events)| <= |events|
  {
    assert LiveIds(events) <= events.Keys;
    SubsetCard(LiveIds(events), events.Keys);
  }

  lemma {:induction false} SubsetCard<T>(a: set<T>, b: set<T>)
    requires a <= b
    ensures |a| <= |b|
    decreases b
  {
    if a != {} {
      var x :| x in a;
      SubsetCard(a - {x}, b - {x});
    }
  }

  /** `updateLastPolled`: a no-op for an unknown id; otherwise only that
      record's poll time moves. */
  function UpdateLastPolled(reg: Registry, id: string, now: nat): (r: Registry)
    ensures id !in reg.events ==> r == reg
    ensures id in reg.events ==> r.events == reg.events[id := reg.events[id].(lastPolled := Some(now))]
    ensures r.futures == reg.futures
  {
    match Lookup(reg.events, id)
    case None => reg
    case Some(e) => reg.(events := reg.events[id := LiveEvents.UpdateLastPolled(e, now)])
  }

  /** `removeEvent`: the key goes away and the removed record's running future
      is cancelled (through `markAsNotLive` on the detached record). */
  function RemoveEvent(reg: Registry, id: string, now: nat): (r: Registry)
    ensures r.events.Keys == reg.events.Keys - {id}
    ensures forall k :: k in r.events ==> r.events[k] == reg.events[k]
    ensures id in reg.events && reg.events[id].scheduledTask.Some? ==>
              !IsActive(r.futures, reg.events[id].scheduledTask.value)
    ensures r.futures.Keys == reg.futures.Keys
    ensures id in reg.events && HasScheduledTask(reg.events[id], reg.futures) ==>
              var h := reg.events[id].scheduledTask.value;
              r.futures[h] == reg.futures[h].(cancelled := true)
    ensures forall u :: u in reg.futures && (id !in reg.events || Some(u) != reg.events[id].scheduledTask) ==>
              r.futures[u] == reg.futures[u]
  {
    match Lookup(reg.events, id)
    case None => reg
    case Some(e) => Registry(reg.events - {id}, MarkAsNotLive(e, reg.futures, now).tasks)
  }

  /** The futures the records of `events` refer to. */
  function Handles(events: map<string, LiveEvent>): set<TaskId> {
    set k | k in events && events[k].scheduledTask.Some? :: events[k].scheduledTask.value
  }

  /** `clearAll`: every record is marked not-live (cancelling its future) and
      the map is emptied. */
  function ClearAll(reg: Registry): (r: Registry)
    ensures TotalEventsCount(r) == 0
    ensures r.futures.Keys == reg.futures.Keys
    ensures forall k :: k in reg.events && reg.events[k].scheduledTask.Some? ==>
              !IsActive(r.futures, reg.events[k].scheduledTask.value)
    ensures forall u :: u in reg.futures && u !in Handles(reg.events) ==> r.futures[u] == reg.futures[u]
    ensures forall u :: u in reg.futures && u in Handles(reg.events) ==> r.futures[u] == reg.futures[u].(cancelled := true)
  {
    Registry(map[], CancelEach(reg.futures, Handles(reg.events)))
  }

  /** `getLiveEventsCount() == getAllLiveEvents().size()`. */
  method LiveEventsCountIsListLength(reg: Registry) returns (live: seq<LiveEvent>)
    ensures |live| == LiveEventsCount(reg) <= TotalEventsCount(reg)
    ensures forall i :: 0 <= i < |live| ==> live[i].isLive
  {
    live := AllLiveEvents(reg.events);
  }

  /** The ids the entries of a list carry. */
  function EntryIds(live: seq<LiveEvent>): set<string> {
    set i | 0 <= i < |live| :: live[i].eventId
  }

  /** A list carries at most as many ids as it has entries, and when it
      carries exactly that many no id appears twice. */
  lemma {:induction false} EntryIdsBound(live: seq<LiveEvent>)
    ensures |EntryIds(live)| <= |live|
    ensures |EntryIds(live)| == |live| ==>
              forall i, j :: 0 <= i < j < |live| ==> live[i].eventId != live[j].eventId
  {
    if live != [] {
      var tail := live[1..];
      EntryIdsBound(tail);
      assert EntryIds(live) == {live[0].eventId} + EntryIds(tail) by {
        forall x | x in EntryIds(live) ensures x in {live[0].eventId} + EntryIds(tail) {
          var i :| 0 <= i < |live| && live[i].eventId == x;
          if i > 0 { assert tail[i - 1].eventId == x; }
        }
        forall x | x in EntryIds(tail) ensures x in EntryIds(live) {
          var i :| 0 <= i < |tail| && tail[i].eventId == x;
          assert live[i + 1].eventId == x;
        }
      }
      if |EntryIds(live)| == |live| {
        assert live[0].eventId !in EntryIds(tail);
        forall i, j | 0 <= i < j < |live| ensures live[i].eventId != live[j].eventId {
          assert live[j] == tail[j - 1];
          if i > 0 { assert live[i] == tail[i - 1]; }
        }
      }
    }
  }

  /** In a well-keyed map, a list holding one entry per live id and every
      live record (as the live list does) has no repeats, and each entry is
      the record stored under its own id. */
  lemma LiveListDistinct(events: map<string, LiveEvent>, live: seq<LiveEvent>)
    requires WellKeyed(events)
    requires |live| == |LiveIds(events)|
    requires forall i :: 0 <= i < |live| ==> live[i].isLive && live[i] in events.Values
    requires forall k :: k in LiveIds(events) ==> events[k] in live
    ensures forall i :: 0 <= i < |live| ==>
              live[i].eventId in LiveIds(events) && events[live[i].eventId] == live[i]
    ensures forall i, j :: 0 <= i < j < |live| ==> live[i] != live[j]
  {
    assert LiveIds(events) <= EntryIds(live) by {
      forall k | k in LiveIds(events) ensures k in EntryIds(live) {
        var i :| 0 <= i < |live| && live[i] == events[k];
        assert live[i].eventId == k;
      }
    }
    SubsetCard(LiveIds(events), EntryIds(live));
    EntryIdsBound(live);
  }

  /** Marking an id live then asking whether it is live answers yes;
      marking it not-live answers no. */
  lemma LiveQueryAfterMarks(reg: Registry, id: string, now: nat)
    ensures IsEventLive(MarkEventAsLive(reg, id, now).registry, id)
    ensures !IsEventLive(MarkEventAsNotLive(reg, id, now).registry, id)
  {
  }

  /** Recording a poll never changes which events are live, nor the counts. */
  lemma UpdateLastPolledKeepsLiveness(reg: Registry, id: string, now: nat)
    ensures LiveIds(UpdateLastPolled(reg, id, now).events) == LiveIds(reg.events)
    ensures TotalEventsCount(UpdateLastPolled(reg, id, now)) == TotalEventsCount(reg)
  {
  }
}

=== FILE: event_status_controller.dfy ===
/** `EventStatusController`: the decisions behind the status endpoints. HTTP
    binding, JSON and request validation are not modelled; a response is a
    value carrying its HTTP status code. */
module StatusController {
  import opened Optional
  import opened Tasks
  import opened LiveEvents
  import opened EventState
  import opened PollingService

  const HttpOk: nat := 200
  const HttpNotFound: nat := 404
  const HttpInternalServerError: nat := 500

  const SuccessMessage: string := "Event status updated successfully"
  const ErrorPrefix: string := "Internal server error: "
  const NotFoundMessage: string := "Event not found"

  /** The request body's `status`: "live" or "not_live". */
  datatype RequestedStatus = Live | NotLive

  datatype EventStatusRequest = EventStatusRequest(eventId: string, status: RequestedStatus)

  /** `EventStatusResponse` with the HTTP code it is sent under. */
  datatype EventStatusResponse = EventStatusResponse(
    httpStatus: nat, eventId: string, status: string, message: string, timestamp: nat)

  datatype Updated = Updated(response: EventStatusResponse, service: Service)

  /** `updateEventStatus`. A live request marks the event live, then starts its
      polling; a not-live request stops polling, then marks the event not-live,
      and succeeds whether or not the id is known. The only exception the live
      path can meet is the task scheduler refusing the task (`accepted` false,
      with `failure` as its message); it turns into a 500 "ERROR" response,
      after the event has already been marked live and its earlier future
      cancelled. */
  function UpdateEventStatus(s: Service, req: EventStatusRequest, now: nat,
                             accepted: bool, failure: string): (r: Updated)
    ensures r.response.eventId == req.eventId && r.response.timestamp == now
    ensures r.service.pollingIntervalMs == s.pollingIntervalMs
    ensures forall k :: k in s.registry.events && k != req.eventId ==>
              k in r.service.registry.events && r.service.registry.events[k] == s.registry.events[k]
    ensures forall u :: u in s.registry.futures &&
                        (req.eventId !in s.registry.events || Some(u) != s.registry.events[req.eventId].scheduledTask) ==>
              u in r.service.registry.futures && (u != s.nextTask ==> r.service.registry.futures[u] == s.registry.futures[u])
    ensures r.service.nextTask == if req.status == Live && accepted then s.nextTask + 1 else s.nextTask
    ensures req.status == NotLive && req.eventId in s.registry.events &&
            HasScheduledTask(s.registry.events[req.eventId], s.registry.futures) ==>
              var h := s.registry.events[req.eventId].scheduledTask.value;
              r.service.registry.futures == Cancel(s.registry.futures, h)
    ensures FreshAllocator(s) && req.status == Live && req.eventId in s.registry.events &&
            HasScheduledTask(s.registry.events[req.eventId], s.registry.futures) ==>
              var h := s.registry.events[req.eventId].scheduledTask.value;
              h in r.service.registry.futures && r.service.registry.futures[h] == s.registry.futures[h].(cancelled := true)
    ensures req.status == Live ==>
              && r.service.registry.events.Keys == s.registry.events.Keys + {req.eventId}
              && r.service.registry.events[req.eventId].isLive
              && r.service.registry.events[req.eventId].lastUpdated == now
              && r.service.registry.events[req.eventId].eventId ==
                   (if req.eventId in s.registry.events then s.registry.events[req.eventId].eventId else req.eventId)
              && r.service.registry.events[req.eventId].lastPolled ==
                   (if req.eventId in s.registry.events then s.registry.events[req.eventId].lastPolled else None)
    ensures req.status == Live && !accepted ==>
              && r.service.registry.futures.Keys == s.registry.futures.Keys
              && r.service.registry.events[req.eventId].scheduledTask ==
                   (if req.eventId in s.registry.events then s.registry.events[req.eventId].scheduledTask else None)
    ensures req.status == Live && accepted ==>
              && r.response == EventStatusResponse(HttpOk, req.eventId, "LIVE", SuccessMessage, now)
              && HasScheduledTask(r.service.registry.events[req.eventId], r.service.registry.futures)
              && r.service.registry.events[req.eventId].scheduledTask == Some(s.nextTask)
              && r.service.registry.futures.Keys == s.registry.futures.Keys + {s.nextTask}
              && r.service.registry.futures[s.nextTask] == Task(req.eventId, false, now + InitialDelayMs, s.pollingIntervalMs)
    ensures req.status == Live && !accepted ==>
              && r.response == EventStatusResponse(HttpInternalServerError, req.eventId, "ERROR", ErrorPrefix + failure, now)
              && !HasScheduledTask(r.service.registry.events[req.eventId], r.service.registry.futures)
    ensures req.status == NotLive ==>
              && r.response == EventStatusResponse(HttpOk, req.eventId, "NOT_LIVE", SuccessMessage, now)
              && r.service.registry.events.Keys == s.registry.events.Keys
              && r.service.registry.futures.Keys == s.registry.futures.Keys
    ensures req.status == NotLive && req.eventId !in s.registry.events ==> r.service == s
    ensures req.status == NotLive && req.eventId in s.registry.events ==>
              var e := s.registry.events[req.eventId];
              && r.service.registry.events[req.eventId] ==
                   e.(isLive := false, lastUpdated := now,
                      scheduledTask := if HasScheduledTask(e, s.registry.futures) then None else e.scheduledTask)
              && !r.service.registry.events[req.eventId].isLive
              && !HasScheduledTask(r.service.registry.events[req.eventId], r.service.registry.futures)
  {
    var id := req.eventId;
    match req.status
    case Live =>
      var marked := MarkEventAsLive(s.registry, id, now);
      var started := StartPollingForEvent(s.(registry := marked.registry), id, now, accepted);
      if started.outcome.SchedulerRejected? then
        Updated(EventStatusResponse(HttpInternalServerError, id, "ERROR", ErrorPrefix + failure, now), started.service)
      else
        Updated(EventStatusResponse(HttpOk, id, "LIVE", SuccessMessage, now), started.service)
    case NotLive =>
      var stopped := StopPollingForEvent(s, id);
      var unmarked := MarkEventAsNotLive(stopped.registry, id, now);
      Updated(EventStatusResponse(HttpOk, id, "NOT_LIVE", SuccessMessage, now), stopped.(registry := unmarked.registry))
  }

  /** The body of `getEventStatus`: 404 with `found = false` for an unknown
      id, otherwise the record's fields and whether its future still runs. */
  datatype StatusView =
    | NotFoundView(httpStatus: nat, eventId: string, found: bool, message: string)
    | FoundView(httpStatus: nat, eventId: string, isLive: bool, lastUpdated: nat,
                lastPolled: Option<nat>, hasScheduledTask: bool)

  function GetEventStatus(s: Service, id: string): (r: StatusView)
    ensures r.NotFoundView? <==> id !in s.registry.events
    ensures r.NotFoundView? ==> r == NotFoundView(HttpNotFound, id, false, NotFoundMessage)
    ensures r.FoundView? ==>
              var e := s.registry.events[id];
              && r.httpStatus == HttpOk
              && r.eventId == e.eventId && r.isLive == e.isLive
              && r.lastUpdated == e.lastUpdated && r.lastPolled == e.lastPolled
              && (r.hasScheduledTask <==>
                    e.scheduledTask.Some? && e.scheduledTask.value in s.registry.futures
                    && !s.registry.futures[e.scheduledTask.value].cancelled)
  {
    match GetEvent(s.registry, id)
    case None => NotFoundView(HttpNotFound, id, false, NotFoundMessage)
    case Some(e) =>
      FoundView(HttpOk, e.eventId, e.isLive, e.lastUpdated, e.lastPolled,
                HasScheduledTask(e, s.registry.futures))
  }

  /** One entry of the live list. */
  datatype EventSummary = EventSummary(eventId: string, lastUpdated: nat, lastPolled: Option<nat>)

  datatype LiveList = LiveList(count: nat, events: seq<EventSummary>)

  function Summarize(e: LiveEvent): EventSummary {
    EventSummary(e.eventId, e.lastUpdated, e.lastPolled)
  }

  /** `getAllLiveEvents`: `count` is the length of `events`, which is the
      registry's live count; every entry summarises a live record and every
      live record is summarised. */
  method GetAllLiveEvents(s: Service) returns (r: LiveList)
    ensures r.count == |r.events| == LiveEventsCount(s.registry)
    ensures forall i :: 0 <= i < |r.events| ==>
              exists k :: k in LiveIds(s.registry.events) && r.events[i] == Summarize(s.registry.events[k])
    ensures forall k :: k in LiveIds(s.registry.events) ==> Summarize(s.registry.events[k]) in r.events
  {
    var live := AllLiveEvents(s.registry.events);
    var summaries := seq(|live|, i requires 0 <= i < |live| => Summarize(live[i]));
    forall i | 0 <= i < |summaries|
      ensures exists k :: k in LiveIds(s.registry.events) && summaries[i] == Summarize(s.registry.events[k])
    {
      assert live[i] in s.registry.events.Values;
      var k :| k in s.registry.events && s.registry.events[k] == live[i];
      assert k in LiveIds(s.registry.events);
    }
    forall k | k in LiveIds(s.registry.events)
      ensures Summarize(s.registry.events[k]) in summaries
    {
      var i :| 0 <= i < |live| && live[i] == s.registry.events[k];
      assert summaries[i] == Summarize(s.registry.events[k]);
    }
    r := LiveList(|summaries|, summaries);
  }

  /** What the status endpoint reports right after a status update: live with
      a running task after an accepted live request, live without one after a
      refused one, not live and not polling after a not-live request on a
      known id, and not found after one on an unknown id. */
  lemma StatusAfterUpdate(s: Service, req: EventStatusRequest, now: nat, accepted: bool, failure: string)
    ensures var v := GetEventStatus(UpdateEventStatus(s, req, now, accepted, failure).service, req.eventId);
            && (req.status == Live ==> v.FoundView? && v.isLive && v.lastUpdated == now && (v.hasScheduledTask <==> accepted))
            && (req.status == NotLive && req.eventId in s.registry.events ==> v.FoundView? && !v.isLive && !v.hasScheduledTask)
            && (req.status == NotLive && req.eventId !in s.registry.events ==> v.NotFoundView? && !v.found)
            && (WellKeyed(s.registry.events) && v.FoundView? ==> v.eventId == req.eventId)
  {
  }
}

=== FILE: lifecycle.dfy ===
/** The polling lifecycle as a sequential state machine, and its invariant:
    every future that will still fire belongs to a present, live record that
    refers to it, so each event id has at most one running future.

    Concurrency is not modelled: each call is one atomic step, and a tick
    already in flight when its future is cancelled is the separate action
    `Poll`, which may run at any point. */
module Lifecycle {
  import opened Optional
  import opened Tasks
  import opened LiveEvents
  import opened EventState
  import opened PollingService
  import opened StatusController

  /** A running future is owned by the live record of its event, which refers
      to it. */
  predicate Owned(s: Service, t: TaskId)
    requires t in s.registry.futures
  {
    var id := s.registry.futures[t].eventId;
    id in s.registry.events && s.registry.events[id].isLive && s.registry.events[id].scheduledTask == Some(t)
  }

  /** The invariant of the service's state. */
  predicate Valid(s: Service) {
    && WellKeyed(s.registry.events)
    && FreshAllocator(s)
    && (forall k :: k in s.registry.events && s.registry.events[k].scheduledTask.Some? ==>
          && s.registry.events[k].scheduledTask.value in s.registry.futures
          && s.registry.futures[s.registry.events[k].scheduledTask.value].eventId == k)
    && (forall t :: t in s.registry.futures && !s.registry.futures[t].cancelled ==> Owned(s, t))
  }

  /** The futures of `id` that will still fire. */
  function ActiveTasks(s: Service, id: string): set<TaskId> {
    set t | t in s.registry.futures && !s.registry.futures[t].cancelled && s.registry.futures[t].eventId == id
  }

  /** Under the invariant the running futures of an id are exactly the one its
      record refers to, when that one runs, and none otherwise. */
  lemma ActiveTasksOfValid(s: Service, id: string)
    requires Valid(s)
    ensures id in s.registry.events && HasScheduledTask(s.registry.events[id], s.registry.futures) ==>
              ActiveTasks(s, id) == {s.registry.events[id].scheduledTask.value}
    ensures !(id in s.registry.events && HasScheduledTask(s.registry.events[id], s.registry.futures)) ==>
              ActiveTasks(s, id) == {}
    ensures |ActiveTasks(s, id)| <= 1
  {
  }

  /** Two running futures for the same event are the same future. */
  lemma AtMostOneActive(s: Service, t1: TaskId, t2: TaskId)
    requires Valid(s)
    requires IsActive(s.registry.futures, t1) && IsActive(s.registry.futures, t2)
    requires s.registry.futures[t1].eventId == s.registry.futures[t2].eventId
    ensures t1 == t2
  {
  }

  lemma InitValid(pollingIntervalMs: nat)
    ensures Valid(Init(pollingIntervalMs))
  {
  }

  lemma MarkEventAsLivePreserves(s: Service, id: string, now: nat)
    requires Valid(s)
    ensures Valid(s.(registry := MarkEventAsLive(s.registry, id, now).registry))
  {
  }

  lemma MarkEventAsNotLivePreserves(s: Service, id: string, now: nat)
    requires Valid(s)
    ensures Valid(s.(registry := MarkEventAsNotLive(s.registry, id, now).registry))
  {
  }

  lemma UpdateLastPolledPreserves(s: Service, id: string, now: nat)
    requires Valid(s)
    ensures Valid(s.(registry := EventState.UpdateLastPolled(s.registry, id, now)))
  {
  }

  lemma RemoveEventPreserves(s: Service, id: string, now: nat)
    requires Valid(s)
    ensures Valid(s.(registry := RemoveEvent(s.registry, id, now)))
  {
  }

  lemma ClearAllPreserves(s: Service)
    requires Valid(s)
    ensures Valid(s.(registry := ClearAll(s.registry)))
  {
  }

  /** Starting keeps the invariant, and on a live id that the scheduler
      accepts leaves exactly one running future for it: the new one. */
  lemma StartPollingPreserves(s: Service, id: string, now: nat, accepted: bool)
    requires Valid(s)
    ensures var r := StartPollingForEvent(s, id, now, accepted);
            && Valid(r.service)
            && (IsEventLive(s.registry, id) && accepted ==> ActiveTasks(r.service, id) == {s.nextTask})
  {
  }

  lemma StopPollingPreserves(s: Service, id: string)
    requires Valid(s)
    ensures var r := StopPollingForEvent(s, id);
            Valid(r) && ActiveTasks(r, id) == {}
  {
  }

  lemma PollEventDataPreserves(s: Service, id: string, now: nat,
                               fetch: string -> Option<ApiResponse>,
                               publish: (string, KafkaMessage) -> bool)
    requires Valid(s)
    ensures Valid(PollEventData(s, id, now, fetch, publish).service)
  {
  }

  /** After shutdown nothing fires any more. */
  lemma ShutdownPreserves(s: Service)
    requires Valid(s)
    ensures var r := Shutdown(s);
            Valid(r) && forall t :: !IsActive(r.registry.futures, t)
  {
  }

  /** A live request that the scheduler accepts ends with exactly one running
      future for the id; a not-live request ends with none. */
  lemma UpdateEventStatusPreserves(s: Service, req: EventStatusRequest, now: nat,
                                   accepted: bool, failure: string)
    requires Valid(s)
    ensures var r := UpdateEventStatus(s, req, now, accepted, failure);
            && Valid(r.service)
            && (req.status == Live && accepted ==> |ActiveTasks(r.service, req.eventId)| == 1)
            && (req.status == Live && !accepted ==> ActiveTasks(r.service, req.eventId) == {})
            && (req.status == NotLive ==> ActiveTasks(r.service, req.eventId) == {})
  {
    var id := req.eventId;
    var r := UpdateEventStatus(s, req, now, accepted, failure);
    match req.status
    case Live =>
      var marked := s.(registry := MarkEventAsLive(s.registry, id, now).registry);
      MarkEventAsLivePreserves(s, id, now);
      StartPollingPreserves(marked, id, now, accepted);
      assert r.service == StartPollingForEvent(marked, id, now, accepted).service;
      ActiveTasksOfValid(r.service, id);
    case NotLive =>
      var stopped := StopPollingForEvent(s, id);
      StopPollingPreserves(s, id);
      MarkEventAsNotLivePreserves(stopped, id, now);
      assert r.service == stopped.(registry := MarkEventAsNotLive(stopped.registry, id, now).registry);
      ActiveTasksOfValid(r.service, id);
  }

  /** The operations of the service and its controller, as steps. `Poll`
      is a tick already in flight, which may run whatever state its future is
      in; `FireTask` is the scheduler firing a future. */
  datatype Action =
    | MarkLive(id: string)
    | MarkNotLive(id: string)
    | RecordPoll(id: string)
    | Remove(id: string)
    | Clear
    | Start(id: string, accepted: bool)
    | Stop(id: string)
    | Poll(id: string, fetch: string -> Option<ApiResponse>, publish: (string, KafkaMessage) -> bool)
    | FireTask(task: TaskId, fetch: string -> Option<ApiResponse>, publish: (string, KafkaMessage) -> bool)
    | ShutdownAll
    | Request(req: EventStatusRequest, accepted: bool, failure: string)

  /** An action at an instant of the abstract clock. */
  datatype Call = Call(now: nat, action: Action)

  function Step(s: Service, c: Call): Service {
    match c.action
    case MarkLive(id) => s.(registry := MarkEventAsLive(s.registry, id, c.now).registry)
    case MarkNotLive(id) => s.(registry := MarkEventAsNotLive(s.registry, id, c.now).registry)
    case RecordPoll(id) => s.(registry := EventState.UpdateLastPolled(s.registry, id, c.now))
    case Remove(id) => s.(registry := RemoveEvent(s.registry, id, c.now))
    case Clear => s.(registry := ClearAll(s.registry))
    case Start(id, accepted) => StartPollingForEvent(s, id, c.now, accepted).service
    case Stop(id) => StopPollingForEvent(s, id)
    case Poll(id, fetch, publish) => PollEventData(s, id, c.now, fetch, publish).service
    case FireTask(t, fetch, publish) => Fire(s, t, c.now, fetch, publish).service
    case ShutdownAll => Shutdown(s)
    case Request(req, accepted, failure) => UpdateEventStatus(s, req, c.now, accepted, failure).service
  }

  function Run(s: Service, calls: seq<Call>): Service
    decreases |calls|
  {
    if |calls| == 0 then s else Run(Step(s, calls[0]), calls[1..])
  }

  lemma StepPreservesValid(s: Service, c: Call)
    requires Valid(s)
    ensures Valid(Step(s, c))
  {
    match c.action
    case MarkLive(id) => MarkEventAsLivePreserves(s, id, c.now);
    case MarkNotLive(id) => MarkEventAsNotLivePreserves(s, id, c.now);
    case RecordPoll(id) => UpdateLastPolledPreserves(s, id, c.now);
    case Remove(id) => RemoveEventPreserves(s, id, c.now);
    case Clear => ClearAllPreserves(s);
    case Start(id, accepted) => StartPollingPreserves(s, id, c.now, accepted);
    case Stop(id) => StopPollingPreserves(s, id);
    case Poll(id, fetch, publish) => PollEventDataPreserves(s, id, c.now, fetch, publish);
    case FireTask(t, fetch, publish) =>
      if IsActive(s.registry.futures, t) {
        PollEventDataPreserves(s, s.registry.futures[t].eventId, c.now, fetch, publish);
      }
    case ShutdownAll => ShutdownPreserves(s);
    case Request(req, accepted, failure) => UpdateEventStatusPreserves(s, req, c.now, accepted, failure);
  }

  /** Every state reached from a valid one is valid. */
  lemma {:induction false} RunPreservesValid(s: Service, calls: seq<Call>)
    requires Valid(s)
    ensures Valid(Run(s, calls))
    decreases |calls|
  {
    if |calls| > 0 {
      StepPreservesValid(s, calls[0]);
      RunPreservesValid(Step(s, calls[0]), calls[1..]);
    }
  }

  /** In every state the service can reach, an event id has at most one
      running future, and that future's record is present and live. */
  lemma ReachableStatesHaveOneTaskPerEvent(pollingIntervalMs: nat, calls: seq<Call>, id: string)
    ensures var s := Run(Init(pollingIntervalMs), calls);
            && |ActiveTasks(s, id)| <= 1
            && (ActiveTasks(s, id) != {} ==> IsEventLive(s.registry, id))
  {
    InitValid(pollingIntervalMs);
    RunPreservesValid(Init(pollingIntervalMs), calls);
    var s := Run(Init(pollingIntervalMs), calls);
    ActiveTasksOfValid(s, id);
  }

  /** Once polling is stopped, no future of that event fires any more. */
  lemma NoFiringAfterStop(s: Service, id: string, t: TaskId, now: nat,
                          fetch: string -> Option<ApiResponse>,
                          publish: (string, KafkaMessage) -> bool)
    requires Valid(s)
    requires t in s.registry.futures && s.registry.futures[t].eventId == id
    ensures var stopped := StopPollingForEvent(s, id);
            Fire(stopped, t, now, fetch, publish) == Tick(NotFired, stopped, [])
  {
  }

  /** Under the invariant a firing future always finds its event live: the
      self-stop branch of a tick is only reached by a tick in flight. */
  lemma FiringNeverSelfStops(s: Service, t: TaskId, now: nat,
                             fetch: string -> Option<ApiResponse>,
                             publish: (string, KafkaMessage) -> bool)
    requires Valid(s)
    requires IsActive(s.registry.futures, t)
    ensures Fire(s, t, now, fetch, publish).outcome != SelfStopped
  {
  }

  /** Why the controller marks the event live before starting: the other
      order, on an unknown id, ends with the event live and nothing polling. */
  lemma StartBeforeMarkPollsNothing(s: Service, id: string, now: nat)
    requires Valid(s)
    requires id !in s.registry.events
    ensures var started := StartPollingForEvent(s, id, now, true).service;
            var r := started.(registry := MarkEventAsLive(started.registry, id, now).registry);
            IsEventLive(r.registry, id) && ActiveTasks(r, id) == {}
  {
    var started := StartPollingForEvent(s, id, now, true).service;
    var r := started.(registry := MarkEventAsLive(started.registry, id, now).registry);
    MarkEventAsLivePreserves(started, id, now);
    ActiveTasksOfValid(r, id);
  }

  /** After `removeEvent` the id is unknown to the status endpoint and nothing
      polls it any more. */
  lemma RemoveEventEndsPolling(s: Service, id: string, now: nat)
    requires Valid(s)
    ensures var r := s.(registry := RemoveEvent(s.registry, id, now));
            GetEventStatus(r, id).NotFoundView? && ActiveTasks(r, id) == {}
  {
    RemoveEventPreserves(s, id, now);
    ActiveTasksOfValid(s.(registry := RemoveEvent(s.registry, id, now)), id);
  }

  /** After `clearAll` the statistics read zero and no future runs. */
  lemma ClearAllEndsPolling(s: Service, now: nat)
    requires Valid(s)
    ensures var r := s.(registry := ClearAll(s.registry));
            && GetPollingStats(r, now).totalEvents == 0
            && GetPollingStats(r, now).liveEvents == 0
            && forall t :: !IsActive(r.registry.futures, t)
  {
    ClearAllPreserves(s);
  }
}

=== FILE: live_event.dfy ===
/** The `LiveEvent` record and its three mutators. */
module LiveEvents {
  import opened Optional
  import opened Tasks

  /** One tracked event. Timestamps are instants of an abstract clock;
      `lastPolled` is None until the first successful fetch, and
      `scheduledTask` is None until polling starts (or after it is stopped). */
  datatype LiveEvent = LiveEvent(
    eventId: string,
    isLive: bool,
    lastUpdated: nat,
    lastPolled: Option<nat>,
    scheduledTask: Option<TaskId>)

  /** A record together with the futures table, for the mutators that may
      cancel the record's future. */
  datatype WithTasks = WithTasks(event: LiveEvent, tasks: TaskTable)

  /** The record's future exists and is not cancelled: what the status
      endpoint reports as `hasScheduledTask`. */
  predicate HasScheduledTask(e: LiveEvent, tasks: TaskTable) {
    e.scheduledTask.Some? && IsActive(tasks, e.scheduledTask.value)
  }

  /** `markAsLive`: the flag goes up and the transition time is recorded;
      neither the poll time nor the task reference is touched. */
  function MarkAsLive(e: LiveEvent, now: nat): (r: LiveEvent)
    ensures r.isLive && r.lastUpdated == now
    ensures r.eventId == e.eventId && r.lastPolled == e.lastPolled
    ensures r.scheduledTask == e.scheduledTask
  {
    e.(isLive := true, lastUpdated := now)
  }

  /** `markAsNotLive`: the flag goes down, the transition time is recorded and
      a referenced future that is still running is cancelled. The reference
      itself stays in the record. */
  function MarkAsNotLive(e: LiveEvent, tasks: TaskTable, now: nat): (r: WithTasks)
    ensures !r.event.isLive && r.event.lastUpdated == now
    ensures r.event.eventId == e.eventId && r.event.lastPolled == e.lastPolled
    ensures r.event.scheduledTask == e.scheduledTask
    ensures !HasScheduledTask(r.event, r.tasks)
    ensures r.tasks.Keys == tasks.Keys
    ensures forall u :: u in tasks && Some(u) != e.scheduledTask ==> r.tasks[u] == tasks[u]
    ensures forall u :: u in tasks ==> r.tasks[u].eventId == tasks[u].eventId
    ensures !HasScheduledTask(e, tasks) ==> r.tasks == tasks
    ensures HasScheduledTask(e, tasks) ==>
              r.tasks[e.scheduledTask.value] == tasks[e.scheduledTask.value].(cancelled := true)
  {
    var tasks' :=
      if e.scheduledTask.Some? && IsActive(tasks, e.scheduledTask.value)
      then Cancel(tasks, e.scheduledTask.value)
      else tasks;
    WithTasks(e.(isLive := false, lastUpdated := now), tasks')
  }

  /** `updateLastPolled`: only the poll time changes. */
  function UpdateLastPolled(e: LiveEvent, now: nat): (r: LiveEvent)
    ensures r.lastPolled == Some(now)
    ensures r.eventId == e.eventId && r.isLive == e.isLive
    ensures r.lastUpdated == e.lastUpdated && r.scheduledTask == e.scheduledTask
  {
    e.(lastPolled := Some(now))
  }

  /** A second `markAsNotLive` finds the future already cancelled and cancels
      nothing more; the flags and the reference come out as after the first. */
  lemma MarkAsNotLiveTwice(e: LiveEvent, tasks: TaskTable, now1: nat, now2: nat)
    ensures var once := MarkAsNotLive(e, tasks, now1);
            var twice := MarkAsNotLive(once.event, once.tasks, now2);
            && twice.tasks == once.tasks
            && twice.event == once.event.(lastUpdated := now2)
  {
  }
}

=== FILE: optional.dfy ===
/** Optional values: Java's nullable references (a record that may be absent,
    a timestamp not yet set, a handle that was cleared) become `Option`. */
module Optional {

  datatype Option<+T> = None | Some(value: T)

  /** `Map.get`: the value stored under `k`, or None where Java returns null. */
  function Lookup<K, V>(m: map<K, V>, k: K): (r: Option<V>)
    ensures r.Some? <==> k in m
    ensures r.Some? ==> r.value == m[k]
  {
    if k in m then Some(m[k]) else None
  }
}

=== FILE: sports_tracker_service.dfy ===
/** `SportsTrackerService`: one recurring polling task per live event, and the
    work one firing of that task does (re-check liveness, fetch, record the
    poll, transform, publish).

    The external score API and the message producer are oracles: `fetch`
    answers None where the API client gives up and returns null, and
    `publish` answers whether the producer reported success. */
module PollingService {
  import opened Optional
  import opened Tasks
  import opened LiveEvents
  import opened EventState

  /** The first firing is one second after scheduling. */
  const InitialDelayMs: nat := 1000
  /** The `source` field of every published message. */
  const MessageSource: string := "sports-tracker"

  /** The service: the registry it shares with the controller, the next id the
      task scheduler will hand out, and the configured polling period. */
  datatype Service = Service(registry: Registry, nextTask: TaskId, pollingIntervalMs: nat)

  /** The body the external API answers with. */
  datatype ApiResponse = ApiResponse(eventId: string, currentScore: string)

  /** The message map handed to the producer. */
  datatype KafkaMessage = KafkaMessage(eventId: string, currentScore: string, timestamp: nat, source: string)

  /** Why `startPollingForEvent` did or did not schedule. `SchedulerRejected`
      stands for the task scheduler refusing the task (it throws, for instance
      once it is shut down); the exception leaves the method. */
  datatype StartOutcome = Scheduled(task: TaskId) | UnknownEvent | EventNotLive | SchedulerRejected

  datatype Started = Started(outcome: StartOutcome, service: Service)

  /** The steps of one tick, in order: the fetch, the recording of the poll
      time, the publish. */
  datatype TickStep =
    | FetchCall(eventId: string)
    | LastPolledSet(eventId: string, at: nat)
    | PublishCall(key: string, message: KafkaMessage)

  /** How a tick ended: it stopped its own polling because the event is no
      longer live, the fetch gave nothing, the message went out or failed to;
      `NotFired` is a cancelled future that never runs. */
  datatype TickOutcome = SelfStopped | NoData | Published | PublishFailed | NotFired

  datatype Tick = Tick(outcome: TickOutcome, service: Service, trace: seq<TickStep>)

  /** The service as the application context builds it: empty registry. */
  function Init(pollingIntervalMs: nat): Service {
    Service(Registry(map[], map[]), 0, pollingIntervalMs)
  }

  /** The task scheduler never reuses an id: every existing future, and every
      future a record refers to, has an id below the next one. */
  predicate FreshAllocator(s: Service) {
    && (forall u :: u in s.registry.futures ==> u < s.nextTask)
    && (forall k :: k in s.registry.events && s.registry.events[k].scheduledTask.Some? ==>
          s.registry.events[k].scheduledTask.value < s.nextTask)
  }

  /** `startPollingForEvent`. Unknown and not-live ids are refused with no
      change. For a live id a running future is cancelled first; then a new
      fixed-rate future for the id is created and the record refers to it. If
      the scheduler refuses, the earlier future stays cancelled and the record
      still refers to it. */
  function StartPollingForEvent(s: Service, id: string, now: nat, accepted: bool): (r: Started)
    ensures r.service.registry.events.Keys == s.registry.events.Keys
    ensures r.outcome.UnknownEvent? <==> id !in s.registry.events
    ensures r.outcome.EventNotLive? <==> id in s.registry.events && !s.registry.events[id].isLive
    ensures !IsEventLive(s.registry, id) ==> r.service == s
    ensures r.service.pollingIntervalMs == s.pollingIntervalMs
    ensures forall k :: k in s.registry.events && k != id ==> r.service.registry.events[k] == s.registry.events[k]
    ensures IsEventLive(s.registry, id) && accepted ==>
              && r.outcome == Scheduled(s.nextTask)
              && r.service.nextTask == s.nextTask + 1
              && r.service.registry.events[id] == s.registry.events[id].(scheduledTask := Some(s.nextTask))
              && s.nextTask in r.service.registry.futures
              && r.service.registry.futures[s.nextTask] == Task(id, false, now + InitialDelayMs, s.pollingIntervalMs)
              && r.service.registry.futures.Keys == s.registry.futures.Keys + {s.nextTask}
    ensures IsEventLive(s.registry, id) && !accepted ==>
              && r.outcome == SchedulerRejected
              && r.service.nextTask == s.nextTask
              && r.service.registry.events == s.registry.events
              && r.service.registry.futures.Keys == s.registry.futures.Keys
              && !HasScheduledTask(s.registry.events[id], r.service.registry.futures)
    ensures FreshAllocator(s) && IsEventLive(s.registry, id) && s.registry.events[id].scheduledTask.Some? ==>
              !IsActive(r.service.registry.futures, s.registry.events[id].scheduledTask.value)
    ensures forall u :: u in s.registry.futures && (id !in s.registry.events || Some(u) != s.registry.events[id].scheduledTask) ==>
              u in r.service.registry.futures && (u != s.nextTask ==> r.service.registry.futures[u] == s.registry.futures[u])
    ensures FreshAllocator(s) && IsEventLive(s.registry, id) && HasScheduledTask(s.registry.events[id], s.registry.futures) ==>
              var h := s.registry.events[id].scheduledTask.value;
              r.service.registry.futures[h] == s.registry.futures[h].(cancelled := true)
  {
    match GetEvent(s.registry, id)
    case None => Started(UnknownEvent, s)
    case Some(e) =>
      if !e.isLive then Started(EventNotLive, s)
      else
        var futures :=
          if e.scheduledTask.Some? && IsActive(s.registry.futures, e.scheduledTask.value)
          then Cancel(s.registry.futures, e.scheduledTask.value)
          else s.registry.futures;
        if !accepted then
          Started(SchedulerRejected, s.(registry := s.registry.(futures := futures)))
        else
          var t := s.nextTask;
          var task := Task(id, false, now + InitialDelayMs, s.pollingIntervalMs);
          var events := s.registry.events[id := e.(scheduledTask := Some(t))];
          Started(Scheduled(t), Service(Registry(events, futures[t := task]), t + 1, s.pollingIntervalMs))
  }

  /** `stopPollingForEvent`. Only a known record with a running future is
      affected: the future is cancelled and the reference cleared. Anything
      else (unknown id, no reference, already cancelled) changes nothing. */
  function StopPollingForEvent(s: Service, id: string): (r: Service)
    ensures r.registry.events.Keys == s.registry.events.Keys
    ensures !(id in s.registry.events && HasScheduledTask(s.registry.events[id], s.registry.futures)) ==> r == s
    ensures id in s.registry.events ==>
              && !HasScheduledTask(r.registry.events[id], r.registry.futures)
              && r.registry.events[id].isLive == s.registry.events[id].isLive
              && r.registry.events[id].lastPolled == s.registry.events[id].lastPolled
    ensures id in s.registry.events && HasScheduledTask(s.registry.events[id], s.registry.futures) ==>
              && r.registry.events[id] == s.registry.events[id].(scheduledTask := None)
              && r.registry.futures == Cancel(s.registry.futures, s.registry.events[id].scheduledTask.value)
    ensures forall k :: k in s.registry.events && k != id ==> r.registry.events[k] == s.registry.events[k]
    ensures r.nextTask == s.nextTask && r.pollingIntervalMs == s.pollingIntervalMs
  {
    match GetEvent(s.registry, id)
    case None => s
    case Some(e) =>
      if e.scheduledTask.Some? && IsActive(s.registry.futures, e.scheduledTask.value) then
        var futures := Cancel(s.registry.futures, e.scheduledTask.value);
        s.(registry := Registry(s.registry.events[id := e.(scheduledTask := None)], futures))
      else s
  }

  /** `transformToKafkaMessage`: the response's id and score, stamped with the
      current time and the service's name. */
  function TransformToKafkaMessage(resp: ApiResponse, now: nat): (m: KafkaMessage)
    ensures m.eventId == resp.eventId && m.currentScore == resp.currentScore
    ensures m.timestamp == now && m.source == MessageSource
  {
    KafkaMessage(resp.eventId, resp.currentScore, now, MessageSource)
  }

  /** `pollEventData`, one firing for `id`. A not-live or unknown id stops its
      own polling and calls nothing outside. A fetch that yields nothing
      changes nothing. Otherwise the poll time is recorded, then the message is
      published under the key `id`. Whatever the producer answers, the state
      is the same. */
  function PollEventData(s: Service, id: string, now: nat,
                         fetch: string -> Option<ApiResponse>,
                         publish: (string, KafkaMessage) -> bool): (r: Tick)
    ensures r.service.registry.events.Keys == s.registry.events.Keys
    ensures !IsEventLive(s.registry, id) ==>
              r.outcome == SelfStopped && r.service == StopPollingForEvent(s, id) && r.trace == []
    ensures IsEventLive(s.registry, id) && fetch(id).None? ==>
              r.outcome == NoData && r.service == s && r.trace == [FetchCall(id)]
    ensures IsEventLive(s.registry, id) && fetch(id).Some? ==>
              && |r.trace| == 3
              && r.trace[2].PublishCall?
              && var m := r.trace[2].message;
              && r.trace[0] == FetchCall(id)
              && r.trace[1] == LastPolledSet(id, now)
              && r.trace[2] == PublishCall(id, m)
              && m.eventId == fetch(id).value.eventId
              && m.currentScore == fetch(id).value.currentScore
              && m.timestamp == now
              && m.source == MessageSource
              && r.service.registry.futures == s.registry.futures
              && (r.outcome == Published <==> publish(id, m))
              && (r.outcome == PublishFailed <==> !publish(id, m))
              && r.service.registry.events[id] == s.registry.events[id].(lastPolled := Some(now))
    ensures forall k :: k in s.registry.events && k != id ==> r.service.registry.events[k] == s.registry.events[k]
    ensures r.service.nextTask == s.nextTask && r.service.pollingIntervalMs == s.pollingIntervalMs
  {
    if !IsEventLive(s.registry, id) then
      Tick(SelfStopped, StopPollingForEvent(s, id), [])
    else
      match fetch(id)
      case None => Tick(NoData, s, [FetchCall(id)])
      case Some(resp) =>
        var polled := s.(registry := EventState.UpdateLastPolled(s.registry, id, now));
        var message := TransformToKafkaMessage(resp, now);
        var outcome := if publish(id, message) then Published else PublishFailed;
        Tick(outcome, polled, [FetchCall(id), LastPolledSet(id, now), PublishCall(id, message)])
  }

  /** One firing of future `t`: a cancelled (or unknown) future does not run;
      a running one polls the event it was created for. */
  function Fire(s: Service, t: TaskId, now: nat,
                fetch: string -> Option<ApiResponse>,
                publish: (string, KafkaMessage) -> bool): (r: Tick)
    ensures !IsActive(s.registry.futures, t) ==> r.outcome == NotFired && r.service == s && r.trace == []
    ensures IsActive(s.registry.futures, t) ==> r == PollEventData(s, s.registry.futures[t].eventId, now, fetch, publish)
  {
    if IsActive(s.registry.futures, t)
    then PollEventData(s, s.registry.futures[t].eventId, now, fetch, publish)
    else Tick(NotFired, s, [])
  }

  /** The statistics map of `getPollingStats`. */
  datatype Stats = Stats(totalEvents: nat, liveEvents: nat, pollingIntervalMs: nat, timestamp: nat)

  /** `getPollingStats`: live read of the registry counts and the period. */
  function GetPollingStats(s: Service, now: nat): (r: Stats)
    ensures r.totalEvents == |s.registry.events|
    ensures r.liveEvents == |LiveIds(s.registry.events)| <= r.totalEvents
    ensures r.pollingIntervalMs == s.pollingIntervalMs && r.timestamp == now
  {
    Stats(TotalEventsCount(s.registry), LiveEventsCount(s.registry), s.pollingIntervalMs, now)
  }

  /** The futures referred to by live records. */
  function LiveHandles(events: map<string, LiveEvent>): set<TaskId> {
    set k | k in events && events[k].isLive && events[k].scheduledTask.Some? :: events[k].scheduledTask.value
  }

  /** `shutdown`: every live record's future is cancelled; the records keep
      their flags and references. */
  function Shutdown(s: Service): (r: Service)
    ensures r.registry.events == s.registry.events
    ensures r.nextTask == s.nextTask && r.pollingIntervalMs == s.pollingIntervalMs
    ensures r.registry.futures.Keys == s.registry.futures.Keys
    ensures forall k :: k in s.registry.events && s.registry.events[k].isLive ==>
              !HasScheduledTask(s.registry.events[k], r.registry.futures)
    ensures forall u :: u in s.registry.futures && u !in LiveHandles(s.registry.events) ==>
              r.registry.futures[u] == s.registry.futures[u]
    ensures forall u :: u in s.registry.futures && u in LiveHandles(s.registry.events) ==>
              r.registry.futures[u] == s.registry.futures[u].(cancelled := true)
  {
    s.(registry := s.registry.(futures := CancelEach(s.registry.futures, LiveHandles(s.registry.events))))
  }

  /** Stopping twice is stopping once. */
  lemma StopIdempotent(s: Service, id: string)
    ensures StopPollingForEvent(StopPollingForEvent(s, id), id) == StopPollingForEvent(s, id)
  {
  }

  /** A tick records a poll time only after a fetch that returned data, and the
      poll time it records is the tick's own instant. */
  lemma PolledOnlyAfterFetch(s: Service, id: string, now: nat,
                             fetch: string -> Option<ApiResponse>,
                             publish: (string, KafkaMessage) -> bool)
    requires id in s.registry.events
    ensures var r := PollEventData(s, id, now, fetch, publish);
            r.service.registry.events[id].lastPolled != s.registry.events[id].lastPolled ==>
              fetch(id).Some? && r.service.registry.events[id].lastPolled == Some(now)
  {
  }
}

=== FILE: tasks.dfy ===
/** The recurring polling tasks handed out by the task scheduler.

    In the service a `ScheduledFuture` object is shared by the live-event
    record that stores it and by the scheduler that fires it, so cancelling it
    through either reference is seen by both. The model keeps every future
    ever created in one table, keyed by a task id; records hold only the id. */
module Tasks {

  type TaskId = nat

  /** One fixed-rate future: the event it polls, whether `cancel` was called,
      the instant of its first run and its period (milliseconds). */
  datatype Task = Task(eventId: string, cancelled: bool, firstRun: nat, period: nat)

  type TaskTable = map<TaskId, Task>

  /** The future exists and has not been cancelled, so it will keep firing. */
  predicate IsActive(tasks: TaskTable, t: TaskId) {
    t in tasks && !tasks[t].cancelled
  }

  /** `future.cancel(false)`: marks the future cancelled; a second call changes
      nothing, and every other future is left alone. */
  function Cancel(tasks: TaskTable, t: TaskId): (r: TaskTable)
    ensures r.Keys == tasks.Keys
    ensures !IsActive(r, t)
    ensures t in tasks ==> r[t] == tasks[t].(cancelled := true)
    ensures forall u :: u in tasks && u != t ==> r[u] == tasks[u]
  {
    if t in tasks then tasks[t := tasks[t].(cancelled := true)] else tasks
  }

  /** Cancels every future whose id is in `ts`, as a loop of `cancel(false)`
      calls over several records does. */
  function CancelEach(tasks: TaskTable, ts: set<TaskId>): (r: TaskTable)
    ensures r.Keys == tasks.Keys
    ensures forall u :: u in ts ==> !IsActive(r, u)
    ensures forall u :: u in tasks && u in ts ==> r[u] == tasks[u].(cancelled := true)
    ensures forall u :: u in tasks && u !in ts ==> r[u] == tasks[u]
  {
    map u | u in tasks :: if u in ts then tasks[u].(cancelled := true) else tasks[u]
  }
}
